=== FILE: README.md ===
# GlusterFS operator console: decision logic in Dafny

The console is an interactive tool that drives a GlusterFS cluster. It shells
out to `gluster`, `mount` and `chown`, and it edits `/etc/hosts`. Three pieces
of decision logic sit inside its prompt loops. This project models each as
pure functions over the operator's answers and the results of external
commands, and proves properties about them.

- **Volume creation** (`create_volume`, module `Volume`, file `volume.dfy`).
  - Brick lines are read until a line that reads `fin` once trimmed and
    lower-cased. Lines that lack `:` or `/` are skipped.
  - A replicated volume with fewer than two bricks is refused.
  - Otherwise `sudo gluster volume create <name> [replica <n>] <bricks> force`
    is issued.
  - When that command succeeds, `sudo gluster volume start <name>` follows.
  - A run returns its outcome and the argument vectors it issued, in order.
- **Main menu** (`show_main_menu`, module `Menu`, file `menu.dfy`).
  - The option list is built by four positional inserts on a master node.
  - A selection index is dispatched by one `match` per mode.
  - The loop runs until the entry "Salir" is picked, taking every action it
    calls to return.
- **Hosts editor** (`edit_hosts`, module `Hosts`, file `hosts.dfy`).
  - Each round proposes the entry `trim(ip) + " " + trim(hostname)`.
  - The entry is refused when an existing line, trimmed, equals it.
  - On confirmation it is appended to the in-memory list and to the file.
  - A session returns the final list and the appended lines.

Three helper modules support these:

- `Text`: ASCII trimming and lower-casing.
- `Seqs`: first match and filtering over sequences.
- `Wrappers`: `Option`.

External commands are modelled by their result: `Succeeded`, `Failed` or
`LaunchError`. The commands' results, the operator's answers and the menu
selections are all parameters.

Where input ends before a loop is done, the Rust `unwrap` on the prompt
panics. The model reports this as its own outcome:

- `InputEnded` for volume creation;
- `exited == false` for the menu;
- `finished == false` for the hosts editor.

The hosts editor's duplicate check compares trimmed lines with an entry that
is not itself re-trimmed. When both trimmed parts are non-blank, the entry
equals its own trim, and the check keeps a session from appending the same
entry twice (`Hosts.NoDoubleAppend`). A blank host name leaves a trailing
space in the entry, and then the same entry can be appended in two successive
rounds when both are confirmed (`Hosts.BlankHostnameAppendedTwice`).

The replica guard in src/volume.rs:59 compares the brick count
with the constant 2, not with the replica count entered. So three replicas
over two bricks is not refused (`Volume.ThresholdIgnoresReplicaCount`).

## Model

| member | source | states |
|---|---|---|
| Volume.TerminatorIsLowerFin | src/volume.rs:48-50 | the letter-by-letter terminator test is exactly "the trimmed, lower-cased line equals `fin`" |
| Volume.TerminatorSpelling | src/volume.rs:48 | a line ends brick input iff, once trimmed, it is three letters spelling `fin` in any mix of cases |
| Volume.TerminatorIsNotBrick | src/volume.rs:48-53 | a terminator line can never pass the brick syntax check, so it is never kept as a brick |
| Volume.ForeignCharIsNotTerminator | src/volume.rs:48 | a line holding any visible character other than the letters of `fin` does not end the input |
| Volume.CollectedBricksSound | src/volume.rs:42-57 | collection ends only at a terminator (none found iff no line is one), and every collected brick is an input line containing `:` and `/` that is not a terminator |
| Volume.ReadBricks | src/volume.rs:40-57 | the brick-reading loop stops iff it meets a terminator and then returns exactly the well-formed lines before the first one, untrimmed and in input order |
| Volume.CollectedAt | src/volume.rs:42-50 | a terminator at index k with none before it makes collection keep the well-formed lines of the first k |
| Volume.ReplicaCountOf | src/volume.rs:27-31 | the replica count passed on is never empty: the operator's text, unvalidated, when that is non-empty, and the default `2` for an empty answer |
| Volume.CreateArgs | src/volume.rs:19-68 | the argument vector is `volume create <name>`, then `replica <n>` only for a replicated volume, then the bricks, then `force` last, with its length fixed by those parts |
| Volume.CreateArgsRoundTrip | src/volume.rs:64-68 | an argument vector built from well-formed bricks parses back to the same name, replica count and bricks |
| Volume.ParseCreateArgsInverse | src/volume.rs:19-35 | every parsable `volume create` vector with well-formed bricks is the one built from its parse |
| Volume.CreateVolume | src/volume.rs:4-99 | nothing is issued iff input ended or the guard refused, and a missing terminator gives `InputEnded`; at most two commands; the first is the create command for the collected bricks; the second, the start command for the name, is issued iff create succeeded; with one command issued, the outcome is `CreatePanicked` iff create could not be launched and `CreateFailed` iff it ran and failed |
| Volume.ReplicaGuard | src/volume.rs:59-62 | the flow refuses for lack of bricks iff the volume is replicated and fewer than two bricks were accepted |
| Volume.CreateCommandContents | src/volume.rs:73-77 | the create command is `sudo gluster` followed by arguments that parse to this name, replica count and the accepted bricks, with `replica <n>` right after the name |
| Volume.EmptyReplicaAnswerDefaults | src/volume.rs:27-34 | a replicated volume whose replica-count answer is empty is created with `replica 2` |
| Volume.StartOnlyAfterCreate | src/volume.rs:79-87 | the start command is issued iff bricks were terminated, the guard passed and the create command succeeded |
| Volume.StartOutcomes | src/volume.rs:89-95 | after a successful create, started, created-not-started and start-unlaunched correspond one to one with the start command's three results |
| Volume.FailedCreateIssuesOneCommand | src/volume.rs:73-98 | a create command that fails or cannot be launched is the only command issued, and no created outcome is reported |
| Volume.ReplicatedExample | src/volume.rs:19-35 | two replicas over `a:/x`, `b:/y` issue exactly `sudo gluster volume create v replica 2 a:/x b:/y force` and then `sudo gluster volume start v` |
| Volume.ThresholdIgnoresReplicaCount | src/volume.rs:59 | three replicas over two bricks are not refused: the create command is issued with `replica 3` |
| Volume.TwoBricksThenFin | src/volume.rs:42-57 | the lines `a:/x`, `b:/y`, `fin` collect exactly the two bricks |
| Volume.SpacedUpperCaseTerminator | src/volume.rs:48-50 | ` FIN ` ends collection, and the lines after it are ignored |
| Volume.MalformedLinesSkipped | src/volume.rs:52-56 | lines lacking `:` or `/` are skipped and collection continues past them |
| Volume.DistributedWithoutBricksProceeds | src/volume.rs:59-68 | a non-replicated volume with no bricks still issues `sudo gluster volume create <name> force` |
| Menu.Insert | src/menu.rs:14-17 | a positional insert puts the new element at its index and shifts the later ones right by one |
| Menu.OptionsLayout | src/menu.rs:5-18 | the master list is the nine labels hosts, bricks, peer, create, status, manage volumes, mount, manage mounts, exit; the client list is hosts, bricks, mount, manage mounts, exit |
| Menu.LabelInjective | src/menu.rs:5-18 | no two actions share a label |
| Menu.LabelMatchesDispatch | src/menu.rs:27-47 | in both modes, the label shown at every in-range index names the action dispatched for it |
| Menu.OnlyLastEntryExits | src/menu.rs:37-45 | an in-range selection leaves the menu iff it is the last index, whose label is "Salir" |
| Menu.MasterExtendsClient | src/menu.rs:5-18 | every client entry appears in the master list, in the same relative order, with the same label and the same action |
| Menu.RunMenu | src/menu.rs:4-48 | each selection before the exit runs exactly its dispatched action, none of them the exit; an exit happens at the first exit selection; without one, every selection was run |
| Menu.MenuExitsAtLastEntry | src/menu.rs:4-48 | with in-range selections the loop ends iff some selection is the last entry, and every action run matches the label picked |
| Hosts.Step | src/hosts.rs:37-56 | a round is a duplicate iff a trimmed existing line equals the entry, and the list is then unchanged; a declined new entry leaves it unchanged; a confirmed new entry is appended, exactly that entry and nothing else |
| Hosts.Session | src/hosts.rs:19-66 | the final list is the initial lines followed by the appended lines, and a session appends no more lines than there are rounds |
| Hosts.SessionStopsAtFirstNo | src/hosts.rs:58-65 | the session runs exactly the rounds up to the first answer other than yes to "another?", appending what running those rounds in turn appends, and it ends normally iff that answer is no |
| Hosts.SessionAppendsFresh | src/hosts.rs:39-54 | every appended line was, when appended, not equal to any trimmed line listed at that moment |
| Hosts.NeverAppendsListed | src/hosts.rs:39 | no appended line equals the trimmed form of a line the file held at the start |
| Hosts.AppendedInRoundOrder | src/hosts.rs:42-54 | the k-th appended line is the entry of a round the operator confirmed, and these rounds come in increasing order |
| Hosts.EntryTrimmed | src/hosts.rs:37 | with non-blank trimmed IP and host name the entry has no surrounding white space, so it equals its own trim |
| Hosts.EmptyHostnameEntryNotTrimmed | src/hosts.rs:37 | with a blank host name the entry ends in a space, so it differs from its own trim |
| Hosts.TrimmedEntryNotRepeated | src/hosts.rs:37-54 | an appended entry that equals its own trim is never appended again later in the same session |
| Hosts.UnreadRoundsIgnored | src/hosts.rs:58-65 | dropping the rounds after the first one that ends the session leaves what the session appends unchanged |
| Hosts.NoDoubleAppendAnyRound | src/hosts.rs:37-54 | when every confirmed round in the list has non-blank trimmed IP and host name, no entry is appended twice in one session |
| Hosts.NoDoubleAppend | src/hosts.rs:37-65 | when every confirmed round the session reads has non-blank trimmed IP and host name, no entry is appended twice in one session, whatever the declined, duplicate or unread rounds held |
| Hosts.RoundAfterNoUnread | src/hosts.rs:58-65 | after one confirmed entry and a "no", a later confirmed round with a blank host name is not read: the session appends only `10.0.0.1 vm1` and ends normally |
| Hosts.BlankHostnameAppendedTwice | src/hosts.rs:37-39 | with a blank host name, two confirmed rounds for the same IP append the same entry `10.0.0.1 ` twice |
| Text.TrimStartShape | src/hosts.rs:37 | left trimming keeps a suffix that does not start with white space and removes only white space |
| Text.TrimEndShape | src/hosts.rs:37 | right trimming keeps a prefix that does not end with white space and removes only white space |
| Text.TrimIsTrimmed | src/hosts.rs:37 | a trimmed string has no white space at either end and is no longer than the original |
| Text.TrimKeepsContent | src/volume.rs:48 | trimming introduces no character and keeps every character that is not white space |
| Text.TrimFixedPoint | src/hosts.rs:39 | trimming leaves a string unchanged iff it has no white space at either end |
| Text.TrimIdempotent | src/hosts.rs:39 | trimming twice is the same as trimming once |
| Text.ToLowerAt | src/volume.rs:48 | lower-casing keeps the length and maps each character independently |
| Seqs.FirstWhereIsFirst | src/volume.rs:42-50 | the first-match search finds the earliest match, and reports none iff nothing matches |
| Seqs.FirstWhereUnique | src/volume.rs:42-50 | a matching index with no match before it is the one found |
| Seqs.FilterMembers | src/volume.rs:52-56 | an element is kept iff it is in the input and passes the test |
| Seqs.FilterAppend | src/volume.rs:52-53 | filtering distributes over concatenation, so kept elements stay in input order |

## Left out

- Process spawning, `sudo` and the exit status. A command is modelled only by its result (`Succeeded`, `Failed`, `LaunchError`) and its argument vector.
- The `dialoguer` prompts and all printed messages. Answers are parameters.
- A partly answered prompt. Input ending inside a brick loop, the menu or a hosts round counts as running out of answers. The one exception is the hosts "another entry?" prompt, which is modelled separately because an append may already have happened.
- Reading `/etc/hosts` and its open-failure path (src/hosts.rs:10-19). The session starts from the file's lines as a list.
- Writing `/etc/hosts` and the panics of its `.expect` calls (src/hosts.rs:47-52). The model records the appended lines instead.
- Volume.CreateVolume: assumes the name, "replicated?" and replica-count prompts are always answered, since `CreateAnswers` holds all three. Input ending at one of them panics at its `.unwrap()` (src/volume.rs:7-31). As with `InputEnded`, nothing is issued.
- Menu.RunMenu: assumes every action the menu calls returns. An action that panics ends the program instead. Examples are the `expect` of src/volume.rs:77 (`Volume.CreatePanicked`), those of src/hosts.rs:50-52, and any prompt's `unwrap`. The menu model does not record that ending.
- The actions the menu calls. src/bricks.rs, src/mount.rs, src/peers.rs and src/cluster.rs are not part of this model, and neither are `manage_volumes` and `manage_mounts`. The menu treats each as an opaque action.
- Role selection and top-level wiring (src/mode.rs, src/main.rs).
- Text.Trim: Rust's `trim` uses Unicode white space; the model uses only ASCII white space.
- Text.ToLower: Rust's `to_lowercase` is full Unicode; the model lower-cases only ASCII letters.

=== FILE: hosts.dfy ===
/**
  The `/etc/hosts` editor (`edit_hosts` in src/hosts.rs).

  The file's lines are read once into a list. Each round the operator gives
  an IP and a host name; the entry `trim(ip) + " " + trim(hostname)` is
  refused when some existing line, trimmed, equals it. Otherwise the
  operator is asked to confirm, and a confirmed entry is appended both to
  the file and to the in-memory list. The operator then says whether to do
  another round.

  The file itself is not modelled: a session returns the final in-memory
  list and the lines it appended to the file, in order.
 */
module Hosts {
  import opened Wrappers
  import opened Text
  import opened Seqs

  /**
    One round's answers: IP, host name, the confirmation (read only for a new
    entry), and the answer to "another?", `None` when input ends at that prompt.
   */
  datatype Round = Round(ip: string, hostname: string, confirm: bool, another: Option<bool>)

  datatype Effect =
    | Duplicate              // the entry is already listed: nothing written
    | Declined               // the entry is new but the operator said no
    | Appended(entry: string)

  datatype StepResult = StepResult(lines: seq<string>, effect: Effect)

  /** The entry a round proposes. */
  function NewEntry(ip: string, hostname: string): string {
    Trim(ip) + " " + Trim(hostname)
  }

  /** Some existing line, once trimmed, is exactly `entry`. */
  predicate AlreadyListed(lines: seq<string>, entry: string) {
    exists j :: 0 <= j < |lines| && Trim(lines[j]) == entry
  }

  /** One round: a duplicate or a declined entry leaves the list alone; a confirmed new entry is appended. */
  function Step(lines: seq<string>, round: Round): (r: StepResult)
    ensures r.effect == Duplicate <==> AlreadyListed(lines, NewEntry(round.ip, round.hostname))
    ensures r.effect == Declined <==> !AlreadyListed(lines, NewEntry(round.ip, round.hostname)) && !round.confirm
    ensures r.effect.Appended? <==> !AlreadyListed(lines, NewEntry(round.ip, round.hostname)) && round.confirm
    ensures r.effect.Appended? ==> r.effect.entry == NewEntry(round.ip, round.hostname) && r.lines == lines + [r.effect.entry]
    ensures !r.effect.Appended? ==> r.lines == lines
  {
    var entry := NewEntry(round.ip, round.hostname);
    if AlreadyListed(lines, entry) then StepResult(lines, Duplicate)
    else if round.confirm then StepResult(lines + [entry], Appended(entry))
    else StepResult(lines, Declined)
  }

  /** The final in-memory list, the lines appended to the file, and whether the operator ended the session. */
  datatype HostsRun = HostsRun(lines: seq<string>, appended: seq<string>, finished: bool)

  /** Every appended line was, when it was appended, not yet listed. */
  predicate AppendedFresh(initial: seq<string>, appended: seq<string>) {
    forall k :: 0 <= k < |appended| ==> !AlreadyListed(initial + appended[..k], appended[k])
  }

  function EffectLines(e: Effect): seq<string> {
    if e.Appended? then [e.entry] else []
  }

  /**
    The editing loop over a sequence of rounds. It stops after a round whose
    "another?" answer is no (`finished`). When input ends first, at the
    "another?" prompt or before a round, the prompt's unwrap panics: what was
    appended so far stays appended and `finished` is false.
   */
  function Session(lines: seq<string>, rounds: seq<Round>): (r: HostsRun)
    ensures r.lines == lines + r.appended
    ensures |r.appended| <= |rounds|
    decreases |rounds|
  {
    if |rounds| == 0 then HostsRun(lines, [], false)
    else
      var step := Step(lines, rounds[0]);
      var mine := EffectLines(step.effect);
      match rounds[0].another
      case None => HostsRun(step.lines, mine, false)
      case Some(false) => HostsRun(step.lines, mine, true)
      case Some(true) =>
        var rest := Session(step.lines, rounds[1..]);
        HostsRun(rest.lines, mine + rest.appended, rest.finished)
  }

  /** A round whose "another?" answer is not yes is the last one the session reads. */
  predicate EndsSession(round: Round) {
    round.another != Some(true)
  }

  /** The number of rounds a session reads: up to and including the first that ends it, or all of them. */
  function RoundsRead(rounds: seq<Round>): (n: nat)
    ensures n <= |rounds|
  {
    match FirstWhere(rounds, EndsSession)
    case None => |rounds|
    case Some(k) => k + 1
  }

  /** The lines appended when every round is run in turn, regardless of the "another?" answers. */
  function ApplyRounds(lines: seq<string>, rounds: seq<Round>): seq<string>
    decreases |rounds|
  {
    if |rounds| == 0 then []
    else
      var step := Step(lines, rounds[0]);
      EffectLines(step.effect) + ApplyRounds(step.lines, rounds[1..])
  }

  /**
    The session runs exactly the rounds up to the first answer other than yes
    to "another?", and ends normally exactly when that answer is no.
   */
  lemma {:induction false} SessionStopsAtFirstNo(lines: seq<string>, rounds: seq<Round>)
    ensures Session(lines, rounds).appended == ApplyRounds(lines, rounds[..RoundsRead(rounds)])
    ensures Session(lines, rounds).finished <==>
      FirstWhere(rounds, EndsSession).Some? && rounds[FirstWhere(rounds, EndsSession).value].another == Some(false)
    decreases |rounds|
  {
    if |rounds| > 0 {
      var step := Step(lines, rounds[0]);
      var mine := EffectLines(step.effect);
      if EndsSession(rounds[0]) {
        assert FirstWhere(rounds, EndsSession) == Some(0);
        assert rounds[..1][1..] == [];
        assert ApplyRounds(lines, rounds[..1]) == mine + ApplyRounds(step.lines, []);
      } else {
        var tail := rounds[1..];
        SessionStopsAtFirstNo(step.lines, tail);
        var n := RoundsRead(tail);
        assert RoundsRead(rounds) == n + 1;
        assert rounds[..n + 1][1..] == tail[..n];
        assert ApplyRounds(lines, rounds[..n + 1]) == mine + ApplyRounds(step.lines, tail[..n]);
        match FirstWhere(tail, EndsSession)
        case None =>
        case Some(k) =>
          assert rounds[k + 1] == tail[k];
      }
    }
  }

  /** Every line a session appends was, at the moment it was appended, not yet listed. */
  lemma {:induction false} SessionAppendsFresh(lines: seq<string>, rounds: seq<Round>)
    ensures AppendedFresh(lines, Session(lines, rounds).appended)
    decreases |rounds|
  {
    if |rounds| > 0 {
      var step := Step(lines, rounds[0]);
      var mine := EffectLines(step.effect);
      if rounds[0].another == Some(true) {
        SessionAppendsFresh(step.lines, rounds[1..]);
        assert step.lines == lines + mine;
        if step.effect.Appended? {
          assert lines + mine[..0] == lines;
        }
        assert AppendedFresh(lines, mine);
        SessionFreshStep(lines, mine, Session(step.lines, rounds[1..]).appended);
      }
    }
  }

  /** No line a session appends equals the trimmed form of a line the file held before. */
  lemma NeverAppendsListed(lines: seq<string>, rounds: seq<Round>)
    ensures var app := Session(lines, rounds).appended;
      forall k, j :: 0 <= k < |app| && 0 <= j < |lines| ==> Trim(lines[j]) != app[k]
  {
    var app := Session(lines, rounds).appended;
    SessionAppendsFresh(lines, rounds);
    forall k, j | 0 <= k < |app| && 0 <= j < |lines| ensures Trim(lines[j]) != app[k] {
      assert !AlreadyListed(lines + app[..k], app[k]);
      assert (lines + app[..k])[j] == lines[j];
    }
  }

  /** Freshness composes: a fresh first append followed by appends fresh after it. */
  lemma SessionFreshStep(lines: seq<string>, mine: seq<string>, later: seq<string>)
    requires |mine| <= 1
    requires AppendedFresh(lines, mine)
    requires AppendedFresh(lines + mine, later)
    ensures AppendedFresh(lines, mine + later)
  {
    var all := mine + later;
    forall k | 0 <= k < |all|
      ensures !AlreadyListed(lines + all[..k], all[k])
    {
      if k < |mine| {
        assert all[..k] == mine[..k];
      } else {
        assert all[..k] == mine + later[..k - |mine|];
        assert lines + all[..k] == (lines + mine) + later[..k - |mine|];
      }
    }
  }

  /** When neither part trims to nothing, the entry has no white space at its ends, so it equals its own trim. */
  lemma EntryTrimmed(ip: string, hostname: string)
    requires Trim(ip) != "" && Trim(hostname) != ""
    ensures Trim(NewEntry(ip, hostname)) == NewEntry(ip, hostname)
  {
    TrimIsTrimmed(ip);
    TrimIsTrimmed(hostname);
    var e := NewEntry(ip, hostname);
    assert e[0] == Trim(ip)[0];
    assert e[|e| - 1] == Trim(hostname)[|Trim(hostname)| - 1];
    TrimFixedPoint(e);
  }

  /** An empty host name leaves a trailing space, so the stored entry no longer equals its own trim. */
  lemma EmptyHostnameEntryNotTrimmed(ip: string, hostname: string)
    requires Trim(hostname) == ""
    ensures Trim(NewEntry(ip, hostname)) != NewEntry(ip, hostname)
  {
    var e := NewEntry(ip, hostname);
    assert e[|e| - 1] == ' ';
    TrimFixedPoint(e);
  }

  predicate WellFormedRound(round: Round) {
    Trim(round.ip) != "" && Trim(round.hostname) != ""
  }

  /** The indices of the rounds that appended a line, in order. */
  function AppendingRounds(lines: seq<string>, rounds: seq<Round>): seq<nat>
    decreases |rounds|
  {
    if |rounds| == 0 then []
    else
      var step := Step(lines, rounds[0]);
      var mine: seq<nat> := if step.effect.Appended? then [0] else [];
      if rounds[0].another == Some(true) then mine + Shift(AppendingRounds(step.lines, rounds[1..]))
      else mine
  }

  /** What a round index says about the line appended in that round. */
  predicate AppendedBy(rounds: seq<Round>, i: nat, line: string) {
    i < |rounds| && rounds[i].confirm && line == NewEntry(rounds[i].ip, rounds[i].hostname)
  }

  /**
    The appended lines come from the rounds in order: the `k`-th appended line
    is the entry of round `idx[k]`, which the operator confirmed, and these
    rounds come in increasing order.
   */
  lemma {:induction false} AppendedInRoundOrder(lines: seq<string>, rounds: seq<Round>)
    ensures var app := Session(lines, rounds).appended;
      var idx := AppendingRounds(lines, rounds);
      && |idx| == |app|
      && (forall k :: 0 <= k < |idx| ==> AppendedBy(rounds, idx[k], app[k]))
      && Increasing(idx)
    decreases |rounds|
  {
    if |rounds| > 0 {
      var step := Step(lines, rounds[0]);
      var mine: seq<nat> := if step.effect.Appended? then [0] else [];
      var mineApp := EffectLines(step.effect);
      assert |mine| == 1 ==> AppendedBy(rounds, 0, mineApp[0]);
      if rounds[0].another == Some(true) {
        AppendedInRoundOrder(step.lines, rounds[1..]);
        var rest := AppendingRounds(step.lines, rounds[1..]);
        PrependRound(rounds, mine, mineApp, rest, Session(step.lines, rounds[1..]).appended);
        IncreasingPrepend(mine, rest);
      }
    }
  }

  /** The first round's append, if any, followed by the later rounds' appends, shifted past the first round. */
  lemma PrependRound(rounds: seq<Round>, mine: seq<nat>, mineApp: seq<string>, rest: seq<nat>, rapp: seq<string>)
    requires |rounds| > 0 && |mine| == |mineApp| <= 1
    requires |mine| == 1 ==> mine[0] == 0 && AppendedBy(rounds, 0, mineApp[0])
    requires |rest| == |rapp|
    requires forall k :: 0 <= k < |rest| ==> AppendedBy(rounds[1..], rest[k], rapp[k])
    ensures var idx := mine + Shift(rest);
      forall k :: 0 <= k < |idx| ==> AppendedBy(rounds, idx[k], (mineApp + rapp)[k])
  {
    var shifted := Shift(rest);
    var idx := mine + shifted;
    var app := mineApp + rapp;
    forall k | 0 <= k < |idx| ensures AppendedBy(rounds, idx[k], app[k]) {
      if k < |mine| {
        assert idx[k] == mine[0] && app[k] == mineApp[0];
      } else {
        var j := k - |mine|;
        ShiftAt(rest, j);
        assert idx[k] == rest[j] + 1;
        assert app[k] == rapp[j];
        AppendedByLater(rounds, rest[j], rapp[j]);
      }
    }
  }

  /** What a later round appended, seen from the round list that starts one round earlier. */
  lemma AppendedByLater(rounds: seq<Round>, i: nat, line: string)
    requires |rounds| > 0 && AppendedBy(rounds[1..], i, line)
    ensures AppendedBy(rounds, i + 1, line)
  {
    assert rounds[i + 1] == rounds[1..][i];
  }

  predicate Increasing(s: seq<nat>) {
    forall k, m :: 0 <= k < m < |s| ==> s[k] < s[m]
  }

  /** Putting round 0 in front of increasing later-round indices, shifted by one, keeps them increasing. */
  lemma IncreasingPrepend(mine: seq<nat>, rest: seq<nat>)
    requires |mine| <= 1 && (|mine| == 1 ==> mine[0] == 0)
    requires Increasing(rest)
    ensures Increasing(mine + Shift(rest))
  {
    var shifted := Shift(rest);
    var idx := mine + shifted;
    forall k, m | 0 <= k < m < |idx| ensures idx[k] < idx[m] {
      var b := m - |mine|;
      ShiftAt(rest, b);
      assert idx[m] == shifted[b];
      if k >= |mine| {
        var a := k - |mine|;
        ShiftAt(rest, a);
        assert idx[k] == shifted[a];
        assert rest[a] < rest[b];
      } else {
        assert idx[k] == 0;
      }
    }
  }

  /** Every index moved one place on, for the rounds after the first. */
  function Shift(idx: seq<nat>): (r: seq<nat>)
    ensures |r| == |idx|
  {
    if |idx| == 0 then [] else [idx[0] + 1] + Shift(idx[1..])
  }

  lemma {:induction false} ShiftAt(idx: seq<nat>, k: nat)
    requires k < |idx|
    ensures Shift(idx)[k] == idx[k] + 1
  {
    if k > 0 {
      ShiftAt(idx[1..], k - 1);
    }
  }

  /**
    An appended entry that equals its own trim is never appended again later
    in the same session: the trimmed comparison sees the earlier copy.
   */
  lemma TrimmedEntryNotRepeated(lines: seq<string>, rounds: seq<Round>)
    ensures var app := Session(lines, rounds).appended;
      forall i, j :: 0 <= i < j < |app| && Trim(app[i]) == app[i] ==> app[i] != app[j]
  {
    var app := Session(lines, rounds).appended;
    SessionAppendsFresh(lines, rounds);
    forall i, j | 0 <= i < j < |app| && Trim(app[i]) == app[i] ensures app[i] != app[j] {
      var before := lines + app[..j];
      assert before[|lines| + i] == app[i];
      assert !AlreadyListed(before, app[j]);
    }
  }

  /** Rounds after the first that ends the session are never read: dropping them changes nothing appended. */
  lemma UnreadRoundsIgnored(lines: seq<string>, rounds: seq<Round>)
    ensures Session(lines, rounds[..RoundsRead(rounds)]).appended == Session(lines, rounds).appended
  {
    var n := RoundsRead(rounds);
    var prefix := rounds[..n];
    FirstWhereIsFirst(rounds, EndsSession);
    match FirstWhere(rounds, EndsSession)
    case None =>
      assert prefix == rounds;
    case Some(k) =>
      assert prefix[k] == rounds[k];
      FirstWhereUnique(prefix, EndsSession, k);
    assert RoundsRead(prefix) == n;
    assert prefix[..n] == prefix;
    SessionStopsAtFirstNo(lines, rounds);
    SessionStopsAtFirstNo(lines, prefix);
  }

  /** No entry is appended twice when every confirmed round, read or not, is well-formed. */
  lemma NoDoubleAppendAnyRound(lines: seq<string>, rounds: seq<Round>)
    requires forall i :: 0 <= i < |rounds| && rounds[i].confirm ==> WellFormedRound(rounds[i])
    ensures var app := Session(lines, rounds).appended;
      forall i, j :: 0 <= i < j < |app| ==> app[i] != app[j]
  {
    var app := Session(lines, rounds).appended;
    var idx := AppendingRounds(lines, rounds);
    AppendedInRoundOrder(lines, rounds);
    TrimmedEntryNotRepeated(lines, rounds);
    forall i | 0 <= i < |app| ensures Trim(app[i]) == app[i] {
      var r := idx[i];
      assert AppendedBy(rounds, r, app[i]);
      EntryTrimmed(rounds[r].ip, rounds[r].hostname);
    }
  }

  /**
    When every confirmed round the session reads names a non-blank IP and
    host name, no entry is ever appended twice in one session, whatever was
    typed in rounds that were declined, duplicates, or never read.
   */
  lemma NoDoubleAppend(lines: seq<string>, rounds: seq<Round>)
    requires forall i :: 0 <= i < RoundsRead(rounds) && rounds[i].confirm ==> WellFormedRound(rounds[i])
    ensures var app := Session(lines, rounds).appended;
      forall i, j :: 0 <= i < j < |app| ==> app[i] != app[j]
  {
    var prefix := rounds[..RoundsRead(rounds)];
    assert forall i :: 0 <= i < |prefix| ==> prefix[i] == rounds[i];
    UnreadRoundsIgnored(lines, rounds);
    NoDoubleAppendAnyRound(lines, prefix);
  }

  /** A round after the operator's "no" is never read, even a confirmed one with a blank host name. */
  lemma RoundAfterNoUnread(rounds: seq<Round>)
    requires rounds == [Round("10.0.0.1", "vm1", true, Some(false)), Round("10.0.0.2", " ", true, Some(true))]
    ensures RoundsRead(rounds) == 1 && WellFormedRound(rounds[0]) && !WellFormedRound(rounds[1])
    ensures Session([], rounds) == HostsRun(["10.0.0.1 vm1"], ["10.0.0.1 vm1"], true)
  {
    assert Trim("10.0.0.1") == "10.0.0.1";
    assert Trim("vm1") == "vm1";
    assert Trim(" ") == "";
    assert NewEntry("10.0.0.1", "vm1") == "10.0.0.1 vm1";
    assert FirstWhere(rounds, EndsSession) == Some(0);
  }

  /**
    Without that condition the check is defeated: a blank host name makes the
    same entry, with its trailing space, get appended in two successive rounds.
   */
  lemma BlankHostnameAppendedTwice(rounds: seq<Round>)
    requires rounds == [Round("10.0.0.1", " ", true, Some(true)), Round("10.0.0.1", " ", true, Some(false))]
    ensures Session([], rounds).appended == ["10.0.0.1 ", "10.0.0.1 "]
  {
    var e := NewEntry("10.0.0.1", " ");
    assert Trim("10.0.0.1") == "10.0.0.1";
    assert Trim(" ") == "";
    assert e == "10.0.0.1 ";
    EmptyHostnameEntryNotTrimmed("10.0.0.1", " ");
    assert !AlreadyListed([], e);
    assert !AlreadyListed([e], e);
  }
}

=== FILE: menu.dfy ===
/**
  The main menu (`show_main_menu` in src/menu.rs).

  The option list starts from the five entries every node shows and, on a
  master node, gets four more entries inserted at positions 2 to 5. A
  selection index is then dispatched by a separate `match` per mode. The
  menu is shown again after every action that returns, until the operator
  picks the last entry, "Salir".

  The actions themselves (editing hosts, creating a volume, ...) are opaque
  here and are taken to return; an action that panics (a failed `expect` or
  `unwrap` inside it) would end the program instead. The menu loop is
  modelled as the sequence of actions it runs.
 */
module Menu {

  datatype Action =
    | EditHosts
    | ManageBricks
    | AddPeer
    | CreateAndStartVolume
    | CheckStatus
    | ManageVolumes
    | MountVolume
    | ManageMounts
    | Exit

  /** The label the menu uses for each action. */
  function Label(a: Action): string {
    match a
    case EditHosts => "Editar /etc/hosts"
    case ManageBricks => "Gestionar bricks"
    case AddPeer => "Agregar peer"
    case CreateAndStartVolume => "Crear e iniciar volumen"
    case CheckStatus => "Ver estado del clúster"
    case ManageVolumes => "Gestionar volúmenes"
    case MountVolume => "Montar volumen"
    case ManageMounts => "Gestionar montajes"
    case Exit => "Salir"
  }

  /** No two actions share a label, so a label names exactly one action. */
  lemma LabelInjective(a: Action, b: Action)
    ensures Label(a) == Label(b) ==> a == b
  {
  }

  /** `Vec::insert`: `x` lands at index `i`, elements from `i` on move one place right. */
  function Insert<T>(s: seq<T>, i: nat, x: T): (r: seq<T>)
    requires i <= |s|
    ensures |r| == |s| + 1
    ensures r[i] == x
    ensures forall j :: 0 <= j < i ==> r[j] == s[j]
    ensures forall j :: i <= j < |s| ==> r[j + 1] == s[j]
  {
    s[..i] + [x] + s[i..]
  }

  /** The entries every node shows, in order. */
  const BaseOptions: seq<string> :=
    ["Editar /etc/hosts", "Gestionar bricks", "Montar volumen", "Gestionar montajes", "Salir"]

  /** The option list as built: the base list, plus four positional inserts on a master node. */
  function Options(isMaster: bool): seq<string> {
    if isMaster then
      var o := Insert(BaseOptions, 2, "Agregar peer");
      var o := Insert(o, 3, "Crear e iniciar volumen");
      var o := Insert(o, 4, "Ver estado del clúster");
      Insert(o, 5, "Gestionar volúmenes")
    else
      BaseOptions
  }

  /** The action each mode's `match` runs for a selection index; any other index leaves the loop. */
  function Dispatch(isMaster: bool, selection: nat): Action {
    if isMaster then
      match selection
      case 0 => EditHosts
      case 1 => ManageBricks
      case 2 => AddPeer
      case 3 => CreateAndStartVolume
      case 4 => CheckStatus
      case 5 => ManageVolumes
      case 6 => MountVolume
      case 7 => ManageMounts
      case _ => Exit
    else
      match selection
      case 0 => EditHosts
      case 1 => ManageBricks
      case 2 => MountVolume
      case 3 => ManageMounts
      case _ => Exit
  }

  /** The master list has nine entries and the client list five, each in this order. */
  lemma OptionsLayout()
    ensures Options(true) == [Label(EditHosts), Label(ManageBricks), Label(AddPeer), Label(CreateAndStartVolume),
      Label(CheckStatus), Label(ManageVolumes), Label(MountVolume), Label(ManageMounts), Label(Exit)]
    ensures Options(false) == [Label(EditHosts), Label(ManageBricks), Label(MountVolume), Label(ManageMounts), Label(Exit)]
  {
    var o1 := Insert(BaseOptions, 2, "Agregar peer");
    assert o1 == ["Editar /etc/hosts", "Gestionar bricks", "Agregar peer", "Montar volumen", "Gestionar montajes", "Salir"];
    var o2 := Insert(o1, 3, "Crear e iniciar volumen");
    var o3 := Insert(o2, 4, "Ver estado del clúster");
    var o4 := Insert(o3, 5, "Gestionar volúmenes");
    assert o4 == Options(true);
  }

  /** Whatever the mode, the entry shown at every index names the action dispatched for that index. */
  lemma LabelMatchesDispatch(isMaster: bool, i: nat)
    requires i < |Options(isMaster)|
    ensures Label(Dispatch(isMaster, i)) == Options(isMaster)[i]
  {
    OptionsLayout();
    if isMaster {
      if i < 4 {
        assert i == 0 || i == 1 || i == 2 || i == 3;
      } else {
        assert i == 4 || i == 5 || i == 6 || i == 7 || i == 8;
      }
    } else {
      assert i == 0 || i == 1 || i == 2 || i == 3 || i == 4;
    }
  }

  /** Only the last entry, "Salir", leaves the menu. */
  lemma OnlyLastEntryExits(isMaster: bool, i: nat)
    requires i < |Options(isMaster)|
    ensures Dispatch(isMaster, i) == Exit <==> i == |Options(isMaster)| - 1
    ensures Options(isMaster)[|Options(isMaster)| - 1] == "Salir"
  {
    OptionsLayout();
    if isMaster {
      if i < 4 {
        assert i == 0 || i == 1 || i == 2 || i == 3;
      } else {
        assert i == 4 || i == 5 || i == 6 || i == 7 || i == 8;
      }
    } else {
      assert i == 0 || i == 1 || i == 2 || i == 3 || i == 4;
    }
  }

  /** Where a client entry sits in the master list: the four master-only entries come after the first two. */
  function ClientToMaster(i: nat): nat {
    if i < 2 then i else i + 4
  }

  /**
    Master mode extends client mode: every client entry appears in the master
    list at a strictly increasing position, with the same label and the same action.
   */
  lemma MasterExtendsClient()
    ensures forall i, j :: 0 <= i < j < |Options(false)| ==> ClientToMaster(i) < ClientToMaster(j)
    ensures forall i :: 0 <= i < |Options(false)| ==> ClientToMaster(i) < |Options(true)|
    ensures forall i :: 0 <= i < |Options(false)| ==> Options(true)[ClientToMaster(i)] == Options(false)[i]
    ensures forall i: nat :: i < |Options(false)| ==> Dispatch(true, ClientToMaster(i)) == Dispatch(false, i)
  {
    OptionsLayout();
  }

  /** The actions run by one session of the menu, and whether it left through "Salir". */
  datatype MenuRun = MenuRun(performed: seq<Action>, exited: bool)

  /**
    The menu loop over a sequence of selections: each selection runs one
    action and shows the menu again, until a selection dispatches to `Exit`.
    When the selections run out first the prompt's unwrap panics: `exited` is false.
   */
  function RunMenu(isMaster: bool, selections: seq<nat>): (r: MenuRun)
    ensures |r.performed| <= |selections|
    ensures forall k :: 0 <= k < |r.performed| ==> r.performed[k] == Dispatch(isMaster, selections[k])
    ensures forall k :: 0 <= k < |r.performed| ==> r.performed[k] != Exit
    ensures r.exited ==> |r.performed| < |selections| && Dispatch(isMaster, selections[|r.performed|]) == Exit
    ensures !r.exited ==> |r.performed| == |selections|
  {
    if |selections| == 0 then MenuRun([], false)
    else
      var action := Dispatch(isMaster, selections[0]);
      if action == Exit then MenuRun([], true)
      else
        var rest := RunMenu(isMaster, selections[1..]);
        MenuRun([action] + rest.performed, rest.exited)
  }

  /**
    With selections the menu can actually return, the session ends exactly
    when the last entry is picked, and every earlier pick ran its action.
   */
  lemma MenuExitsAtLastEntry(isMaster: bool, selections: seq<nat>)
    requires forall k :: 0 <= k < |selections| ==> selections[k] < |Options(isMaster)|
    ensures var r := RunMenu(isMaster, selections);
      && (r.exited <==> exists k :: 0 <= k < |selections| && selections[k] == |Options(isMaster)| - 1)
      && (forall k :: 0 <= k < |r.performed| ==> selections[k] != |Options(isMaster)| - 1)
      && (forall k :: 0 <= k < |r.performed| ==> Label(r.performed[k]) == Options(isMaster)[selections[k]])
  {
    var r := RunMenu(isMaster, selections);
    forall k | 0 <= k < |selections|
      ensures Dispatch(isMaster, selections[k]) == Exit <==> selections[k] == |Options(isMaster)| - 1
    {
      OnlyLastEntryExits(isMaster, selections[k]);
    }
    forall k | 0 <= k < |r.performed|
      ensures Label(r.performed[k]) == Options(isMaster)[selections[k]]
    {
      LabelMatchesDispatch(isMaster, selections[k]);
    }
  }
}

=== FILE: seqs.dfy ===
/**
  Two sequence operations used by the input loops: finding the first element
  that satisfies a test, and keeping the elements that satisfy a test.
 */
module Seqs {
  import opened Wrappers

  /** Index of the first element satisfying `p`, if any. */
  function FirstWhere<T>(s: seq<T>, p: T -> bool): (r: Option<nat>)
    ensures r.Some? ==> r.value < |s| && p(s[r.value])
  {
    if |s| == 0 then None
    else if p(s[0]) then Some(0)
    else match FirstWhere(s[1..], p)
      case None => None
      case Some(k) => Some(k + 1)
  }

  /** `FirstWhere` finds the earliest match, and reports none only when there is none. */
  lemma {:induction false} FirstWhereIsFirst<T>(s: seq<T>, p: T -> bool)
    ensures FirstWhere(s, p).Some? ==> forall j :: 0 <= j < FirstWhere(s, p).value ==> !p(s[j])
    ensures FirstWhere(s, p).None? <==> forall j :: 0 <= j < |s| ==> !p(s[j])
  {
    if |s| > 0 && !p(s[0]) {
      FirstWhereIsFirst(s[1..], p);
      assert forall j :: 1 <= j < |s| ==> s[j] == s[1..][j - 1];
    }
  }

  /** Any index that matches, with nothing matching before it, is the one `FirstWhere` finds. */
  lemma FirstWhereUnique<T>(s: seq<T>, p: T -> bool, i: nat)
    requires i < |s| && p(s[i])
    requires forall j :: 0 <= j < i ==> !p(s[j])
    ensures FirstWhere(s, p) == Some(i)
  {
    FirstWhereIsFirst(s, p);
  }

  /** The elements satisfying `p`, in their original order. */
  function Filter<T>(s: seq<T>, p: T -> bool): (r: seq<T>)
    ensures |r| <= |s|
  {
    if |s| == 0 then []
    else (if p(s[0]) then [s[0]] else []) + Filter(s[1..], p)
  }

  /** An element is kept exactly when it is in `s` and satisfies `p`. */
  lemma {:induction false} FilterMembers<T>(s: seq<T>, p: T -> bool)
    ensures forall x :: x in Filter(s, p) <==> x in s && p(x)
  {
    if |s| > 0 {
      FilterMembers(s[1..], p);
      assert s == [s[0]] + s[1..];
    }
  }

  /** Filtering distributes over concatenation, so order is preserved. */
  lemma {:induction false} FilterAppend<T>(a: seq<T>, b: seq<T>, p: T -> bool)
    ensures Filter(a + b, p) == Filter(a, p) + Filter(b, p)
  {
    if |a| == 0 {
      assert a + b == b;
    } else {
      var head := if p(a[0]) then [a[0]] else [];
      assert (a + b)[0] == a[0];
      assert (a + b)[1..] == a[1..] + b;
      FilterAppend(a[1..], b, p);
      assert Filter(a + b, p) == head + Filter(a[1..] + b, p);
      assert Filter(a, p) == head + Filter(a[1..], p);
    }
  }
}

=== FILE: text.dfy ===
/**
  The two string operations the console applies to operator input: trimming
  surrounding white space and lower-casing. Only ASCII is modelled: the white
  space characters are TAB, LF, VT, FF, CR and SPACE (the ASCII members of the
  set Rust's `char::is_whitespace` accepts), and lower-casing maps `A`..`Z` to
  `a`..`z` and leaves every other character alone.
 */
module Text {

  predicate IsSpace(c: char) {
    c == ' ' || c == '\t' || c == '\n' || c == '\r' || c == '\U{0B}' || c == '\U{0C}'
  }

  /** No white space at either end. */
  predicate IsTrimmed(s: string) {
    |s| == 0 || (!IsSpace(s[0]) && !IsSpace(s[|s| - 1]))
  }

  /** Drops leading white space: the result is a suffix of `s` that does not start with white space. */
  function TrimStart(s: string): (r: string)
  {
    if |s| > 0 && IsSpace(s[0]) then TrimStart(s[1..]) else s
  }

  /** Drops trailing white space: the result is a prefix of `s` that does not end with white space. */
  function TrimEnd(s: string): (r: string)
  {
    if |s| > 0 && IsSpace(s[|s| - 1]) then TrimEnd(s[..|s| - 1]) else s
  }

  /** Rust's `str::trim`, restricted to ASCII white space. */
  function Trim(s: string): (r: string)
  {
    TrimEnd(TrimStart(s))
  }

  /** `TrimStart` keeps a suffix that does not start with white space, and cuts off only white space. */
  lemma {:induction false} TrimStartShape(s: string)
    ensures |TrimStart(s)| <= |s| && TrimStart(s) == s[|s| - |TrimStart(s)|..]
    ensures |TrimStart(s)| > 0 ==> !IsSpace(TrimStart(s)[0])
    ensures forall i :: 0 <= i < |s| - |TrimStart(s)| ==> IsSpace(s[i])
  {
    if |s| > 0 && IsSpace(s[0]) {
      TrimStartShape(s[1..]);
      assert forall i :: 1 <= i < |s| - |TrimStart(s)| ==> s[i] == s[1..][i - 1];
    }
  }

  /** `TrimEnd` keeps a prefix that does not end with white space, and cuts off only white space. */
  lemma {:induction false} TrimEndShape(s: string)
    ensures |TrimEnd(s)| <= |s| && TrimEnd(s) == s[..|TrimEnd(s)|]
    ensures |TrimEnd(s)| > 0 ==> !IsSpace(TrimEnd(s)[|TrimEnd(s)| - 1])
    ensures forall i :: |TrimEnd(s)| <= i < |s| ==> IsSpace(s[i])
  {
    if |s| > 0 && IsSpace(s[|s| - 1]) {
      TrimEndShape(s[..|s| - 1]);
    }
  }

  /** A trimmed string has no white space at either end and is no longer than the original. */
  lemma TrimIsTrimmed(s: string)
    ensures IsTrimmed(Trim(s))
    ensures |Trim(s)| <= |s|
  {
    TrimStartShape(s);
    TrimEndShape(TrimStart(s));
  }

  /** Trimming only removes white space: every other character of `s` survives, and nothing new appears. */
  lemma TrimKeepsContent(s: string)
    ensures forall c :: c in Trim(s) ==> c in s
    ensures forall c :: c in s && !IsSpace(c) ==> c in Trim(s)
  {
    var t := TrimStart(s);
    var r := TrimEnd(t);
    TrimStartShape(s);
    TrimEndShape(t);
    forall c | c in r ensures c in s {
      var i :| 0 <= i < |r| && r[i] == c;
      assert s[i + (|s| - |t|)] == c;
    }
    forall c | c in s && !IsSpace(c) ensures c in r {
      var i :| 0 <= i < |s| && s[i] == c;
      assert r[i - (|s| - |t|)] == c;
    }
  }

  /** One instance of `TrimKeepsContent`: a character that is not white space survives trimming. */
  lemma NonSpaceSurvivesTrim(s: string, c: char)
    ensures c in s && !IsSpace(c) ==> c in Trim(s)
  {
    TrimKeepsContent(s);
  }

  /** Trimming changes a string exactly when it has white space at one of its ends. */
  lemma TrimFixedPoint(s: string)
    ensures Trim(s) == s <==> IsTrimmed(s)
  {
    TrimIsTrimmed(s);
    if IsTrimmed(s) {
      assert TrimStart(s) == s;
      assert TrimEnd(s) == s;
    }
  }

  /** Trimming twice is the same as trimming once. */
  lemma TrimIdempotent(s: string)
    ensures Trim(Trim(s)) == Trim(s)
  {
    TrimIsTrimmed(s);
    TrimFixedPoint(Trim(s));
  }

  function LowerChar(c: char): char {
    if 'A' <= c <= 'Z' then (c as int + 32) as char else c
  }

  /** Rust's `str::to_lowercase`, restricted to ASCII letters. */
  function ToLower(s: string): (r: string)
    ensures |r| == |s|
  {
    if |s| == 0 then [] else [LowerChar(s[0])] + ToLower(s[1..])
  }

  /** Lower-casing works character by character. */
  lemma {:induction false} ToLowerAt(s: string, i: nat)
    requires i < |s|
    ensures ToLower(s)[i] == LowerChar(s[i])
  {
    if i > 0 {
      ToLowerAt(s[1..], i - 1);
    }
  }
}

=== FILE: volume.dfy ===
/**
  The volume-creation flow of the console (`create_volume` in src/volume.rs).

  The operator answers a fixed series of prompts: the volume name, whether
  the volume is replicated, the replica count (only asked for a replicated
  volume) and then one brick line per prompt until a line reading `fin`.
  The flow then either refuses, or issues `sudo gluster volume create ...`
  and, when that succeeds, `sudo gluster volume start <name>`.

  Prompts are replaced by a `CreateAnswers` value and the two commands'
  results by `CmdStatus` parameters; the flow returns its outcome together
  with the argument vectors it issued, in order.
 */
module Volume {
  import opened Wrappers
  import opened Text
  import opened Seqs

  /** What running an external command produced. */
  datatype CmdStatus =
    | Succeeded    // ran and exited with status zero
    | Failed       // ran and exited with a non-zero status
    | LaunchError  // could not be started at all

  /** The flow's answers, in prompt order. `replicaAnswer` is read only when `replicated`. */
  datatype CreateAnswers = CreateAnswers(
    name: string,
    replicated: bool,
    replicaAnswer: string,
    brickLines: seq<string>)

  /** The parameters of one `gluster volume create` command. */
  datatype VolumeRequest = VolumeRequest(name: string, replica: Option<string>, bricks: seq<string>)

  datatype CreateOutcome =
    | InputEnded              // the answers ran out before `fin`: the prompt's unwrap panics
    | TooFewBricks            // replicated volume with fewer than two bricks: nothing issued
    | CreatePanicked          // `volume create` could not be launched: the `expect` panics
    | CreateFailed            // `volume create` ran and failed
    | CreatedAndStarted       // both commands succeeded
    | CreatedNotStarted       // created, `volume start` ran and failed
    | CreatedStartUnlaunched  // created, `volume start` could not be launched (no start message)

  /** The outcome and every argument vector the flow tried to run, in order. */
  datatype CreateRun = CreateRun(outcome: CreateOutcome, issued: seq<seq<string>>)

  /** Bricks a replicated volume needs; a fixed constant, not the replica count entered. */
  const MinReplicaBricks := 2
  /** The replica-count prompt's default, returned for an empty answer. */
  const DefaultReplicaCount := "2"
  const Terminator := "fin"

  /**
    A brick line ends the input when, trimmed and lower-cased, it reads `fin`.
    Stated letter by letter; `TerminatorIsLowerFin` shows it is the same test
    as comparing the lower-cased, trimmed line with `fin`.
   */
  predicate IsTerminator(line: string) {
    var t := Trim(line);
    |t| == 3 && LowerChar(t[0]) == 'f' && LowerChar(t[1]) == 'i' && LowerChar(t[2]) == 'n'
  }

  /** The only syntax check the flow makes on a brick line. */
  predicate IsBrickSpec(line: string) {
    ':' in line && '/' in line
  }

  /** The letter-by-letter test is exactly the source's `trim().to_lowercase() == "fin"`. */
  lemma TerminatorIsLowerFin(line: string)
    ensures IsTerminator(line) <==> ToLower(Trim(line)) == Terminator
  {
    var t := Trim(line);
    if |t| == 3 {
      ToLowerAt(t, 0);
      ToLowerAt(t, 1);
      ToLowerAt(t, 2);
      assert ToLower(t) == Terminator <==> ToLower(t)[0] == 'f' && ToLower(t)[1] == 'i' && ToLower(t)[2] == 'n';
    }
  }

  /** Any capitalisation of `fin`, with any surrounding white space, ends the input. */
  lemma TerminatorSpelling(line: string)
    ensures IsTerminator(line) <==>
      var t := Trim(line);
      && |t| == 3
      && (t[0] == 'f' || t[0] == 'F')
      && (t[1] == 'i' || t[1] == 'I')
      && (t[2] == 'n' || t[2] == 'N')
  {
  }

  /** A terminator line can never also pass the brick syntax check. */
  lemma TerminatorIsNotBrick(line: string)
    ensures IsTerminator(line) ==> !IsBrickSpec(line)
  {
    ForeignCharIsNotTerminator(line, ':');
  }

  /** A line holding any visible character other than the letters of `fin` does not end the input. */
  lemma ForeignCharIsNotTerminator(line: string, c: char)
    requires !IsSpace(c) && c !in "fFiInN"
    ensures c in line ==> !IsTerminator(line)
  {
    if IsTerminator(line) {
      var t := Trim(line);
      NonSpaceSurvivesTrim(line, c);
      assert t == [t[0], t[1], t[2]];
      assert c !in t;
    }
  }

  /** The bricks accepted before the first terminator; `None` when no terminator is ever entered. */
  function CollectedBricks(lines: seq<string>): Option<seq<string>> {
    match FirstWhere(lines, IsTerminator)
    case None => None
    case Some(k) => Some(Filter(lines[..k], IsBrickSpec))
  }

  /**
    Collection ends only at a terminator line, and what it returns are lines
    that passed the syntax check: never the terminator, never a malformed line.
   */
  lemma CollectedBricksSound(lines: seq<string>)
    ensures CollectedBricks(lines).None? <==> forall j :: 0 <= j < |lines| ==> !IsTerminator(lines[j])
    ensures CollectedBricks(lines).Some? ==>
      forall b :: b in CollectedBricks(lines).value ==> b in lines && IsBrickSpec(b) && !IsTerminator(b)
  {
    FirstWhereIsFirst(lines, IsTerminator);
    match FirstWhere(lines, IsTerminator)
    case None =>
    case Some(k) =>
      FilterMembers(lines[..k], IsBrickSpec);
      forall b | b in Filter(lines[..k], IsBrickSpec)
        ensures b in lines && IsBrickSpec(b) && !IsTerminator(b)
      {
        TerminatorIsNotBrick(b);
      }
  }

  /**
    The brick-input loop itself: read lines until the first terminator,
    keep the ones that pass the syntax check, skip (and warn about) the
    others. `found` is false when the lines run out first.
   */
  method ReadBricks(lines: seq<string>) returns (bricks: seq<string>, found: bool)
    ensures found <==> exists j :: 0 <= j < |lines| && IsTerminator(lines[j])
    ensures found ==> CollectedBricks(lines) == Some(bricks)
    ensures !found ==> CollectedBricks(lines) == None
  {
    bricks := [];
    var i := 0;
    while i < |lines|
      invariant 0 <= i <= |lines|
      invariant forall j :: 0 <= j < i ==> !IsTerminator(lines[j])
      invariant bricks == Filter(lines[..i], IsBrickSpec)
    {
      var line := lines[i];
      if IsTerminator(line) {
        FirstWhereUnique(lines, IsTerminator, i);
        return bricks, true;
      }
      assert lines[..i + 1] == lines[..i] + [line];
      FilterAppend(lines[..i], [line], IsBrickSpec);
      if IsBrickSpec(line) {
        bricks := bricks + [line];
      }
      i := i + 1;
    }
    FirstWhereIsFirst(lines, IsTerminator);
    found := false;
  }

  /** The replica count passed on: whatever was typed, or the default for an empty answer. */
  function ReplicaCountOf(answer: string): (count: string)
    ensures |count| > 0
    ensures answer != "" ==> count == answer
    ensures answer == "" ==> count == DefaultReplicaCount
  {
    if answer == "" then DefaultReplicaCount else answer
  }

  /** The arguments after `gluster`: `volume create <name> [replica <n>] <bricks> force`. */
  function CreateArgs(req: VolumeRequest): (args: seq<string>)
    ensures |args| == 4 + |req.bricks| + (if req.replica.Some? then 2 else 0)
    ensures args[..3] == ["volume", "create", req.name]
    ensures args[|args| - 1] == "force"
    ensures req.replica.Some? ==> args[3..5] == ["replica", req.replica.value] && args[5..|args| - 1] == req.bricks
    ensures req.replica.None? ==> args[3..|args| - 1] == req.bricks
  {
    var head := ["volume", "create", req.name];
    var mode := match req.replica case Some(n) => ["replica", n] case None => [];
    var args := head + mode + req.bricks + ["force"];
    assert args[|head| + |mode|..|args| - 1] == req.bricks;
    args
  }

  /** Reads a `volume create` argument vector back into its parameters. */
  function ParseCreateArgs(args: seq<string>): Option<VolumeRequest> {
    if |args| < 4 || args[0] != "volume" || args[1] != "create" || args[|args| - 1] != "force" then None
    else if |args| >= 6 && args[3] == "replica" then Some(VolumeRequest(args[2], Some(args[4]), args[5..|args| - 1]))
    else Some(VolumeRequest(args[2], None, args[3..|args| - 1]))
  }

  /** Building the argument vector loses nothing: it parses back to the same request. */
  lemma CreateArgsRoundTrip(req: VolumeRequest)
    requires forall b :: b in req.bricks ==> IsBrickSpec(b)
    ensures ParseCreateArgs(CreateArgs(req)) == Some(req)
  {
    var args := CreateArgs(req);
    if req.replica.None? && |req.bricks| > 0 {
      assert args[3] == req.bricks[0];
      assert IsBrickSpec(req.bricks[0]);
      assert ':' !in "replica";
    }
  }

  /** Conversely, every parsable argument vector with well-formed bricks is the one built from its parse. */
  lemma ParseCreateArgsInverse(args: seq<string>)
    requires ParseCreateArgs(args).Some?
    requires forall b :: b in ParseCreateArgs(args).value.bricks ==> IsBrickSpec(b)
    ensures CreateArgs(ParseCreateArgs(args).value) == args
  {
    var req := ParseCreateArgs(args).value;
    var built := CreateArgs(req);
    assert |built| == |args|;
    forall i | 0 <= i < |args| ensures built[i] == args[i] {
      if i >= 3 && i < |args| - 1 && req.replica.None? {
        assert built[3..|built| - 1][i - 3] == built[i];
      } else if i >= 5 && i < |args| - 1 && req.replica.Some? {
        assert built[5..|built| - 1][i - 5] == built[i];
      }
    }
  }

  /** The full command line: `sudo gluster` followed by the gluster arguments. */
  function Gluster(args: seq<string>): seq<string> {
    ["sudo", "gluster"] + args
  }

  function StartArgs(name: string): seq<string> {
    ["volume", "start", name]
  }

  function RequestOf(a: CreateAnswers, bricks: seq<string>): VolumeRequest {
    VolumeRequest(a.name, if a.replicated then Some(ReplicaCountOf(a.replicaAnswer)) else None, bricks)
  }

  /** The create command line for these answers and accepted bricks. */
  function CreateCommand(a: CreateAnswers, bricks: seq<string>): seq<string> {
    Gluster(CreateArgs(RequestOf(a, bricks)))
  }

  /** The start command line: `sudo gluster volume start <name>`. */
  function StartCommand(name: string): seq<string> {
    Gluster(StartArgs(name))
  }

  /** Whether the replica guard stops the flow before any command is issued. */
  predicate RefusedForReplica(a: CreateAnswers, bricks: seq<string>) {
    |bricks| < MinReplicaBricks && a.replicated
  }

  /**
    The whole flow. A create command is issued exactly when the brick input
    was terminated and the replica guard passed; a start command exactly when
    the create command succeeded.
   */
  function CreateVolume(a: CreateAnswers, createStatus: CmdStatus, startStatus: CmdStatus): (r: CreateRun)
    ensures |r.issued| <= 2
    ensures r.issued == [] <==> r.outcome == InputEnded || r.outcome == TooFewBricks
    ensures |r.issued| == 2 <==> |r.issued| > 0 && createStatus == Succeeded
    ensures |r.issued| > 0 ==>
      && CollectedBricks(a.brickLines).Some?
      && r.issued[0] == CreateCommand(a, CollectedBricks(a.brickLines).value)
    ensures |r.issued| == 2 ==> r.issued[1] == StartCommand(a.name)
    ensures CollectedBricks(a.brickLines).None? ==> r.outcome == InputEnded
    ensures |r.issued| == 1 ==>
      && (r.outcome == CreatePanicked <==> createStatus == LaunchError)
      && (r.outcome == CreateFailed <==> createStatus == Failed)
  {
    match CollectedBricks(a.brickLines)
    case None => CreateRun(InputEnded, [])
    case Some(bricks) =>
      if RefusedForReplica(a, bricks) then CreateRun(TooFewBricks, [])
      else
        var create := CreateCommand(a, bricks);
        match createStatus
        case LaunchError => CreateRun(CreatePanicked, [create])
        case Failed => CreateRun(CreateFailed, [create])
        case Succeeded =>
          var start := StartCommand(a.name);
          var outcome := match startStatus
            case Succeeded => CreatedAndStarted
            case Failed => CreatedNotStarted
            case LaunchError => CreatedStartUnlaunched;
          CreateRun(outcome, [create, start])
  }

  /** The flow refuses for lack of bricks exactly when it is replicated and fewer than two bricks were accepted. */
  lemma ReplicaGuard(a: CreateAnswers, createStatus: CmdStatus, startStatus: CmdStatus)
    requires CollectedBricks(a.brickLines).Some?
    ensures CreateVolume(a, createStatus, startStatus).outcome == TooFewBricks <==>
      a.replicated && |CollectedBricks(a.brickLines).value| < 2
  {
  }

  /**
    The create command carries the accepted bricks untrimmed and in input
    order, after the optional `replica <n>` pair and before `force`.
   */
  lemma CreateCommandContents(a: CreateAnswers, createStatus: CmdStatus, startStatus: CmdStatus)
    requires CollectedBricks(a.brickLines).Some?
    requires !RefusedForReplica(a, CollectedBricks(a.brickLines).value)
    ensures var r := CreateVolume(a, createStatus, startStatus);
      var bricks := CollectedBricks(a.brickLines).value;
      && |r.issued| > 0
      && r.issued[0][..2] == ["sudo", "gluster"]
      && ParseCreateArgs(r.issued[0][2..]) == Some(RequestOf(a, bricks))
      && (a.replicated ==> r.issued[0][5..7] == ["replica", ReplicaCountOf(a.replicaAnswer)])
  {
    var bricks := CollectedBricks(a.brickLines).value;
    var req := RequestOf(a, bricks);
    CollectedBricksSound(a.brickLines);
    CreateArgsRoundTrip(req);
    assert Gluster(CreateArgs(req))[2..] == CreateArgs(req);
  }

  /** An empty replica-count answer puts the default `replica 2` into the create command. */
  lemma EmptyReplicaAnswerDefaults(a: CreateAnswers, createStatus: CmdStatus, startStatus: CmdStatus)
    requires a.replicated && a.replicaAnswer == ""
    requires CollectedBricks(a.brickLines).Some?
    requires !RefusedForReplica(a, CollectedBricks(a.brickLines).value)
    ensures var r := CreateVolume(a, createStatus, startStatus);
      |r.issued| > 0 && r.issued[0][5..7] == ["replica", "2"]
  {
    CreateCommandContents(a, createStatus, startStatus);
  }

  /** The start command is issued if and only if the create command was issued and succeeded. */
  lemma StartOnlyAfterCreate(a: CreateAnswers, createStatus: CmdStatus, startStatus: CmdStatus)
    ensures var r := CreateVolume(a, createStatus, startStatus);
      |r.issued| == 2 <==>
        && CollectedBricks(a.brickLines).Some?
        && !RefusedForReplica(a, CollectedBricks(a.brickLines).value)
        && createStatus == Succeeded
  {
  }

  /** Once created, the outcome is decided by the start command alone, with three distinct results. */
  lemma StartOutcomes(a: CreateAnswers, startStatus: CmdStatus)
    requires CollectedBricks(a.brickLines).Some?
    requires !RefusedForReplica(a, CollectedBricks(a.brickLines).value)
    ensures var o := CreateVolume(a, Succeeded, startStatus).outcome;
      && (o == CreatedAndStarted <==> startStatus == Succeeded)
      && (o == CreatedNotStarted <==> startStatus == Failed)
      && (o == CreatedStartUnlaunched <==> startStatus == LaunchError)
  {
  }

  /** A create command that fails or cannot be launched is the only command issued. */
  lemma FailedCreateIssuesOneCommand(a: CreateAnswers, createStatus: CmdStatus, startStatus: CmdStatus)
    requires createStatus != Succeeded
    ensures |CreateVolume(a, createStatus, startStatus).issued| <= 1
    ensures CreateVolume(a, createStatus, startStatus).outcome !in
      {CreatedAndStarted, CreatedNotStarted, CreatedStartUnlaunched}
  {
  }

  /** Collection stops at a terminator with none before it, keeping the well-formed lines up to it. */
  lemma CollectedAt(lines: seq<string>, k: nat)
    requires k < |lines| && IsTerminator(lines[k])
    requires forall j :: 0 <= j < k ==> !IsTerminator(lines[j])
    ensures CollectedBricks(lines) == Some(Filter(lines[..k], IsBrickSpec))
  {
    FirstWhereUnique(lines, IsTerminator, k);
  }

  /** A replicated volume with two bricks and two replicas yields exactly the documented command. */
  lemma ReplicatedExample(a: CreateAnswers)
    requires a == CreateAnswers("v", true, "2", ["a:/x", "b:/y", "fin"])
    ensures CreateVolume(a, Succeeded, Succeeded)
      == CreateRun(CreatedAndStarted, [
           ["sudo", "gluster", "volume", "create", "v", "replica", "2", "a:/x", "b:/y", "force"],
           ["sudo", "gluster", "volume", "start", "v"]])
  {
    TwoBricksThenFin(a.brickLines);
    var args := CreateArgs(VolumeRequest("v", Some("2"), ["a:/x", "b:/y"]));
    assert args == ["volume", "create", "v", "replica", "2", "a:/x", "b:/y", "force"];
    assert Gluster(args) == ["sudo", "gluster", "volume", "create", "v", "replica", "2", "a:/x", "b:/y", "force"];
    assert StartCommand("v") == ["sudo", "gluster", "volume", "start", "v"];
  }

  /** The guard's threshold is 2, not the replica count: three replicas over two bricks still goes ahead. */
  lemma ThresholdIgnoresReplicaCount(a: CreateAnswers)
    requires a == CreateAnswers("v", true, "3", ["a:/x", "b:/y", "fin"])
    ensures CreateVolume(a, Failed, Succeeded)
      == CreateRun(CreateFailed, [["sudo", "gluster", "volume", "create", "v", "replica", "3", "a:/x", "b:/y", "force"]])
  {
    TwoBricksThenFin(a.brickLines);
    var args := CreateArgs(VolumeRequest("v", Some("3"), ["a:/x", "b:/y"]));
    assert args == ["volume", "create", "v", "replica", "3", "a:/x", "b:/y", "force"];
    assert Gluster(args) == ["sudo", "gluster", "volume", "create", "v", "replica", "3", "a:/x", "b:/y", "force"];
  }

  lemma TwoBricksThenFin(lines: seq<string>)
    requires lines == ["a:/x", "b:/y", "fin"]
    ensures CollectedBricks(lines) == Some(["a:/x", "b:/y"])
  {
    assert lines[0][1] == ':' && lines[0][2] == '/';
    assert lines[1][1] == ':' && lines[1][2] == '/';
    TerminatorIsNotBrick(lines[0]);
    TerminatorIsNotBrick(lines[1]);
    FinIsTerminator(lines[2]);
    CollectedAt(lines, 2);
    var kept := lines[..2];
    assert kept == ["a:/x", "b:/y"];
    assert kept[1..][1..] == [];
    assert Filter(kept[1..], IsBrickSpec) == [lines[1]];
    assert IsBrickSpec(kept[0]);
    assert Filter(kept, IsBrickSpec) == [lines[0], lines[1]];
  }

  /** The terminator is recognised with any case and surrounding white space, and is never kept as a brick. */
  lemma SpacedUpperCaseTerminator()
    ensures CollectedBricks(["h:/b", " FIN ", "g:/c"]) == Some(["h:/b"])
  {
    var lines := ["h:/b", " FIN ", "g:/c"];
    assert lines[0][1] == ':' && lines[0][2] == '/';
    TerminatorIsNotBrick(lines[0]);
    assert IsTerminator(lines[1]);
    CollectedAt(lines, 1);
    var kept := lines[..1];
    assert kept == ["h:/b"];
    assert kept[1..] == [];
    assert IsBrickSpec(kept[0]);
    assert Filter(kept, IsBrickSpec) == [lines[0]];
  }

  /** Malformed lines are skipped and collection goes on past them. */
  lemma MalformedLinesSkipped(lines: seq<string>)
    requires lines == ["node1", "node1:/b", "/b", "fin"]
    ensures CollectedBricks(lines) == Some(["node1:/b"])
  {
    assert lines[1][5] == ':' && lines[1][6] == '/';
    TerminatorIsNotBrick(lines[1]);
    assert lines[0][1] == 'o' && lines[2][0] == '/';
    ForeignCharIsNotTerminator(lines[0], 'o');
    ForeignCharIsNotTerminator(lines[2], '/');
    FinIsTerminator(lines[3]);
    CollectedAt(lines, 3);
    MalformedFiltered(lines[..3]);
  }

  lemma FinIsTerminator(line: string)
    requires line == "fin"
    ensures IsTerminator(line)
  {
    assert Trim(line) == line;
  }

  lemma MalformedFiltered(kept: seq<string>)
    requires kept == ["node1", "node1:/b", "/b"]
    ensures Filter(kept, IsBrickSpec) == ["node1:/b"]
  {
    assert ':' !in kept[0] && ':' !in kept[2];
    assert kept[1][5] == ':' && kept[1][6] == '/';
    assert kept[1..][1..][1..] == [];
    assert Filter(kept[1..][1..], IsBrickSpec) == [];
    assert Filter(kept[1..], IsBrickSpec) == [kept[1]];
  }

  /** A distributed (non-replicated) volume with no bricks at all is still sent to gluster. */
  lemma DistributedWithoutBricksProceeds(name: string)
    ensures CreateVolume(CreateAnswers(name, false, "", ["fin"]), Failed, Failed)
      == CreateRun(CreateFailed, [["sudo", "gluster", "volume", "create", name, "force"]])
  {
    FinIsTerminator("fin");
    CollectedAt(["fin"], 0);
    assert ["fin"][..0] == [];
    var args := CreateArgs(VolumeRequest(name, None, []));
    assert args == ["volume", "create", name, "force"];
    assert Gluster(args) == ["sudo", "gluster", "volume", "create", name, "force"];
  }
}

=== FILE: wrappers.dfy ===
/** Small optional-value datatype shared by the other modules. */
module Wrappers {

  datatype Option<+T> = None | Some(value: T)
}
